=== FILE: README.md ===
# Admin edge functions: the authorization pipeline

This project models the two privileged HTTP handlers of an admin dashboard
backend: **update-user-password** (which, despite its name, changes the
`user_role` of a user's profile row) and **create-user** (which creates an
account in the identity store). Each handler runs the same sequence on every
request:

1. an `OPTIONS` preflight is answered `200 "ok"` at once;
2. the `Authorization` header must be present and non-empty;
3. the first occurrence of `"Bearer "` is removed from it, giving the token;
4. the token is decoded and its subject (`sub`) must be non-empty;
5. the caller's profile row is read (`user_role` only);
6. the gate allows exactly a row whose role is the string `"admin"` (403 otherwise);
7. the JSON body is read and validated (role update: both fields, then the
   role allow-list `admin, manager, cashier`; create-user: email and password,
   then a minimum password length of 6);
8. at most one privileged mutation is issued;
9. the outcome becomes a response: 200, 400 (every thrown error, with its
   message) or 403.

Each handler is a pure function of an abstract request and of the answers the
external calls would give (token decoder, profile lookup, mutation). It returns
the response and the **trace** of external calls it made, with their arguments.
Steps 2–6 are written once, as `Pipeline.Authorize`, and both handlers call it.

Files:

- `wrappers.dfy`: `Option` and `Result`.
- `jstext.dfy`: the JavaScript behaviour the handlers rely on. This is
  truthiness, `replace` with a string pattern (first occurrence only), `join`,
  UTF-16 code units, and JSON body values (string or not).
- `pipeline.dfy`: the shared request, oracle, trace, error and response types,
  the `Authorize` pipeline and the admin gate.
- `update_role.dfy`: the role-update handler and its properties.
- `create_user.dfy`: the create-user handler and its properties.

External calls are inputs (`Pipeline.Oracles`): the token decoder's result,
the profile lookup's result and the mutation's result. The created user's data
is a type parameter, so the model cannot inspect or alter it.

Three behaviours of the code are easy to misread, and the model keeps them as
the code has them:

- the first `"Bearer "` anywhere in the header is removed, not only a leading
  one (`Pipeline.StripBearerNotOnlyPrefix`);
- a failed profile lookup is a 400 carrying the store's message, not a 403
  (`Pipeline.LookupErrorIsNotForbidden`);
- the preflight answer has the body `"ok"`.

The handlers (`UpdateRole.HandleUpdateRole`, `CreateUser.HandleCreateUser`)
model the code as written, including the password check discussed under
"## Findings". `CreateUser.HandleCreateUserCorrected` is a separate variant
with that check corrected.

## Model

| member | source | states |
|---|---|---|
| JsText.ReplaceFirst | supabase/functions/update-user-password/index.ts:26 | `replace` with a string pattern: with no occurrence the string is unchanged; otherwise exactly the first occurrence is replaced and the rest is kept |
| Pipeline.StripBearerPrefix | supabase/functions/update-user-password/index.ts:26 | a header `"Bearer <rest>"` yields exactly `<rest>` as the token |
| Pipeline.StripBearerAbsent | supabase/functions/update-user-password/index.ts:26 | a header without `"Bearer "` is used unchanged as the token |
| Pipeline.StripBearerRoundTrip | supabase/functions/update-user-password/index.ts:26 | stripping removes exactly seven characters at the first occurrence; re-inserting `"Bearer "` there gives back the header |
| Pipeline.StripBearerFirstOccurrenceOnly | supabase/functions/create-user/index.ts:19 | only the first occurrence is removed: `"Bearer Bearer x"` → `"Bearer x"` |
| Pipeline.StripBearerNotOnlyPrefix | supabase/functions/create-user/index.ts:19 | the removed occurrence need not be a prefix: `"xBearer y"` → `"xy"` |
| Pipeline.SubjectOf | supabase/functions/create-user/index.ts:20-22 | the subject comes from `decoded[1]`, else `decoded.payload`, else `decoded`; the role-update handler reads only element `[1]` and throws when it is missing |
| Pipeline.StatusOf | supabase/functions/update-user-password/index.ts:45-86 | status 403 exactly for the permission-denied return, 400 exactly for every thrown error |
| Pipeline.AdminGateFailClosed | supabase/functions/update-user-password/index.ts:45 | the gate allows exactly one profile value, a row whose role is `"admin"`; a null row, a null role and every other string are denied |
| Pipeline.Authorize | supabase/functions/update-user-password/index.ts:23-50 | no header → "Missing Authorization header" with no calls; otherwise decode first. A decoder throw is a 400 with the decoder's message and no lookup. A decoded token without element `[1]` in the role-update handler is a 400 with the TypeError message and no lookup. Then look up the non-empty subject. Allowed only for an admin row, with exactly those two calls; 403 iff a row was read and is not admin; a lookup error is a 400 with the store's message |
| Pipeline.EmptySubjectRejected | supabase/functions/update-user-password/index.ts:28-30 | a missing or empty subject gives "Invalid token" after the decode and before any lookup |
| Pipeline.LookupErrorIsNotForbidden | supabase/functions/update-user-password/index.ts:43 | a lookup error is never reported as permission denied; once the lookup is reached it is a 400 with the store's message |
| Pipeline.SameGateForBothEndpoints | supabase/functions/create-user/index.ts:16-44 | whenever the decoder yields element `[1]`, both endpoints make the same calls and reach the same decision |
| Pipeline.AtMostOneMutation | supabase/functions/update-user-password/index.ts:66-69 | a trace that follows the fixed order decode, lookup, body, mutation holds at most one mutation, and only as its fourth and last call |
| UpdateRole.InvalidRoleMessageText | supabase/functions/update-user-password/index.ts:60-62 | the unknown-role message is "Invalid role. Must be one of: admin, manager, cashier" |
| UpdateRole.ValidateRoleBody | supabase/functions/update-user-password/index.ts:53-63 | accepted iff both fields are non-empty and the role is one of admin, manager, cashier. A missing field gets the "required" message before the role is checked; an unparsable body gets the parser's message |
| UpdateRole.HandleUpdateRole | supabase/functions/update-user-password/index.ts:16-86 | status is always 200, 400 or 403; the trace follows the pipeline order; CORS headers always present. The update is issued only for an admin caller, with the validated body's values. The body is read iff the gate allowed the caller; 403 iff the gate denied it. Every failure of the gate or of body validation is answered with exactly that failure's error response; a non-preflight 200 means the update was issued as the last call and succeeded |
| UpdateRole.PreflightTouchesNothing | supabase/functions/update-user-password/index.ts:17-19 | OPTIONS gets 200 "ok" with only the CORS headers, and no decode, lookup, body read or update |
| UpdateRole.MissingHeaderRejected | supabase/functions/update-user-password/index.ts:23-24 | an absent or empty header gets 400 "Missing Authorization header" and no call at all |
| UpdateRole.EmptySubjectNeverLooksUp | supabase/functions/update-user-password/index.ts:27-30 | a missing or empty `payload.sub` gets 400 "Invalid token" and no store call |
| UpdateRole.LookupErrorSurfaced | supabase/functions/update-user-password/index.ts:37-43 | a lookup error gets 400 with the store's message; the body is not read and no update is made |
| UpdateRole.NonAdminForbidden | supabase/functions/update-user-password/index.ts:45-50 | any row but an admin row gets 403 "Permission denied" before the body is read, and no update |
| UpdateRole.InvalidBodyNeverUpdates | supabase/functions/update-user-password/index.ts:55-63 | for a caller whose token names a subject with an admin row, a body missing a field gets the "required" message, and an unknown role gets the allow-list message; neither issues an update |
| UpdateRole.UpdateIssuedExactlyWhenAllowed | supabase/functions/update-user-password/index.ts:66-69 | at most one update. It is issued iff the gate allowed the caller and the body is valid; it is then the last call and sets `new_role` on row `user_id` |
| UpdateRole.UpdateOutcomeMapped | supabase/functions/update-user-password/index.ts:71-79 | for an admin caller with a valid body, an update error gets 400 "Failed to update role: " + message; success gets 200 "User role updated successfully." |
| CreateUser.MetadataOrEmpty | supabase/functions/create-user/index.ts:50 | absent metadata becomes the empty map; present metadata is passed on unchanged |
| CreateUser.ValidateAccountBodyAsWritten | supabase/functions/create-user/index.ts:52-53 | the checks as the code runs them: the body passes iff the email is truthy, the password is truthy, and `password.length < 6` is not true |
| CreateUser.NonStringPasswordPassesAsWritten | supabase/functions/create-user/index.ts:53 | a numeric password and a six-element array both pass those checks |
| CreateUser.ValidateAccountBody | supabase/functions/create-user/index.ts:47-53 | corrected check (see ## Findings): accepted iff the email is non-empty and the password is a string of at least 6 UTF-16 code units. A missing email or password gets the "required" message before any length check; 1–5 units get the length message; metadata defaults to `{}` |
| CreateUser.CorrectedAgreesOnStringPasswords | supabase/functions/create-user/index.ts:52-53 | when the password is absent or a string, the corrected checks accept, reject and report exactly as the code does |
| CreateUser.SixUnitsIsEnough | supabase/functions/create-user/index.ts:53 | for the code's checks and for the corrected ones, the bound is strict: 6 code units pass, 5 get "Password must be at least 6 characters long." |
| CreateUser.HandleCreateUser | supabase/functions/create-user/index.ts:11-73 | status is always 200, 400 or 403; the trace follows the pipeline order; CORS headers always present. An account is created only for an admin caller, with the body's own values, when the body passes the code's checks (truthy email, truthy password, `password.length < 6` not true). The body is read iff the gate allowed the caller. A non-preflight 200 echoes the store's data unmodified. Every failure of the gate or of the body checks is answered with exactly that failure's error response; a non-preflight 200 means the creation was issued as the last call and succeeded |
| CreateUser.NumericPasswordReachesCreateUser | supabase/functions/create-user/index.ts:52-60 | as written, an admin's request with a numeric password reaches `createUser` with that number as the password; the corrected handler creates nothing for it |
| CreateUser.HandleCreateUserCorrected | supabase/functions/create-user/index.ts:52-60 | with the corrected checks, an account is created only for an admin caller and only with a string password of at least 6 code units, the values the corrected validation accepted |
| CreateUser.CorrectedHandlerAgreesOnStringPasswords | supabase/functions/create-user/index.ts:47-67 | for every request whose password is absent or a string, the corrected handler returns the same response and trace as the code |
| CreateUser.PreflightTouchesNothing | supabase/functions/create-user/index.ts:11-13 | OPTIONS gets 200 "ok" with no store interaction |
| CreateUser.MissingHeaderRejected | supabase/functions/create-user/index.ts:16-17 | an absent or empty header gets 400 "Missing Authorization header" and no call at all |
| CreateUser.EmptySubjectNeverLooksUp | supabase/functions/create-user/index.ts:19-24 | if the first present of `decoded[1]`, `decoded.payload` and `decoded` has no non-empty `sub`, the answer is 400 "Invalid token" with no store call |
| CreateUser.GateFailureStopsCreation | supabase/functions/create-user/index.ts:31-44 | once the lookup is reached, a lookup error gets 400 with the store's message and a non-admin row gets 403 "Permission denied". In both cases the body is not read and no account is created |
| CreateUser.InvalidBodyNeverCreates | supabase/functions/create-user/index.ts:52-53 | for a caller whose token names a subject with an admin row, a missing email or password gets "email and password are required." before the length check; a short string password gets the length message; no body the code's checks reject creates an account |
| CreateUser.CreationIssuedExactlyWhenAllowed | supabase/functions/create-user/index.ts:56-60 | at most one creation. It is issued iff the gate allowed the caller and the body passes the code's checks; it is then the last call and receives exactly the body's email and password value and its metadata or `{}` |
| CreateUser.CreationOutcomeMapped | supabase/functions/create-user/index.ts:62-67 | for an admin caller whose body passes the checks, a creation error gets 400 "Failed to create user: " + message; success gets 200 "User created successfully." with the store's data as `user`, unmodified |

## Left out

- HTTP serving (`serve`, `Deno.serve`) and `Response` construction are transport. The CORS and content-type headers appear only as constant header lists.
- Supabase client construction and the environment reads for the store URL and service key are configuration I/O and are not modelled.
- The token decoder's internals are not modelled; it is an input that throws or returns a value. It does **not** verify the token's signature, so the subject is attacker-controlled. The model inherits this risk and proves nothing about the authenticity of the caller.
- Each external call's answer is a fixed input per request, not a function of its arguments. The trace records the arguments each call received instead.
- Parsing the JSON body is an input: unparsable, or the fields the endpoint reads. A body that parses to `null` is not modelled: reading its fields throws a TypeError. Every other non-object value (a number, a string, `true`) has no such fields and is the model's parsed body with every field absent, which gets the "required" message as the code gives it. Also not modelled: non-string `user_id`, `new_role` and `email` values; and non-object `metadata` values. Metadata values are abstracted to strings.
- The shape of the created user object is opaque (a type parameter).
- `async`/`await` sequencing: each handler awaits its calls one after another, so it is modelled as a pure function.
- Password length counts UTF-16 code units, as JavaScript's `length` does; nothing is claimed about characters.
- Pipeline.SubjectOf: when element `[1]` is `null` rather than `undefined`, the runtime's TypeError text says "null". Both are modelled with the "undefined" text.
- Pipeline.SubjectOf: a non-string `sub` value (a number, say) is not modelled; the subject is an optional string.
- Errors thrown without a string `message` are not modelled. The two catch blocks (`e.message` and `e?.message ?? String(e)`) agree on every error in the model.

## Findings

| source | as written | input that shows it | evidently intended | confidence | as-written member | corrected member |
|---|---|---|---|---|---|---|
| supabase/functions/create-user/index.ts:53 | `password.length < 6` rejects only values whose `length` is a number below 6. A truthy number has no `length`, and `undefined < 6` is false; an array's `length` counts elements | body `{"email":"a@x.com","password":1234567}`, or a password that is an array of six elements | create an account only with a string password of at least 6 code units | medium, not executed | CreateUser.NumericPasswordReachesCreateUser | CreateUser.HandleCreateUserCorrected |

`CreateUser.HandleCreateUser` keeps the code's behaviour, and
`CreateUser.NumericPasswordReachesCreateUser` shows it calling `createUser`
with a numeric password. `CreateUser.HandleCreateUserCorrected` treats a password
that is not a string as missing, and only ever creates an account with a
string of at least 6 code units. For every string or absent password it
returns what the code returns
(`CreateUser.CorrectedHandlerAgreesOnStringPasswords`).

=== FILE: create_user.dfy ===
/**
 The create-user endpoint: an admin creates an account in the identity store
 with an email, a password of at least six UTF-16 code units, and optional
 user metadata.
 */
module CreateUser {
  import opened Wrappers
  import opened JsText
  import opened Pipeline

  /** The fields read from the JSON body. */
  datatype AccountBody = AccountBody(email: Option<string>, password: Option<JsonValue>, metadata: Option<Metadata>)

  /** What account creation is called with, as the handler's checks let it through. */
  datatype RawAccount = RawAccount(email: string, password: JsonValue, metadata: Metadata)

  /** What account creation is called with once the password is known to be a string. */
  datatype NewAccount = NewAccount(email: string, password: Utf16, metadata: Metadata)

  const MinPasswordLength: nat := 6
  const FieldsRequiredMessage: string := "email and password are required."
  const PasswordTooShortMessage: string := "Password must be at least 6 characters long."
  const CreateFailedPrefix: string := "Failed to create user: "
  const UserCreatedMessage: string := "User created successfully."

  /** `metadata ?? {}`. */
  function MetadataOrEmpty(m: Option<Metadata>): (r: Metadata)
    ensures m.None? ==> r == map[]
    ensures m.Some? ==> r == m.value
  {
    match m
    case Some(v) => v
    case None => map[]
  }

  /**
   `password.length < 6` as JavaScript evaluates it: a string compares its
   length; a value with a numeric `length` compares that; for any other value
   `length` is undefined and `undefined < 6` is false, so the check passes.
   */
  predicate LengthCheckFails(p: JsonValue)
  {
    match p
    case JsString(u) => |u| < MinPasswordLength
    case NonString(_, Some(n)) => n < MinPasswordLength
    case NonString(_, None) => false
  }

  /**
   Body validation exactly as the handler performs it: email and password
   truthy, then the length comparison. A truthy password that is not a string
   reaches account creation unchecked.
   */
  function ValidateAccountBodyAsWritten(body: JsonBody<AccountBody>): (r: Result<RawAccount, Fault>)
    ensures r.Success? <==>
              body.Parsed? && Truthy(body.fields.email) && JsonTruthy(body.fields.password)
              && !LengthCheckFails(body.fields.password.value)
    ensures r.Success? ==>
              r.value == RawAccount(body.fields.email.value, body.fields.password.value, MetadataOrEmpty(body.fields.metadata))
  {
    match body
    case Unparsable(m) => Failure(Thrown(InvalidRequest, m))
    case Parsed(AccountBody(email, password, metadata)) =>
      if !Truthy(email) || !JsonTruthy(password) then Failure(Thrown(InvalidRequest, FieldsRequiredMessage))
      else if LengthCheckFails(password.value) then Failure(Thrown(InvalidRequest, PasswordTooShortMessage))
      else Success(RawAccount(email.value, password.value, MetadataOrEmpty(metadata)))
  }

  /** The guard lets through a numeric password and a six-element array, neither of which is a six-character string. */
  lemma NonStringPasswordPassesAsWritten()
    ensures ValidateAccountBodyAsWritten(Parsed(AccountBody(Some("a@x.com"), Some(NonString(true, None)), None))).Success?
    ensures ValidateAccountBodyAsWritten(Parsed(AccountBody(Some("a@x.com"), Some(NonString(true, Some(6))), None))).Success?
  {
  }

  /**
   Body validation with the evidently intended reading of the length check:
   a password that is not a string counts as missing. Email and password must
   be present and non-empty (one message for either), then the password must
   have at least six code units; the metadata defaults to an empty map.
   */
  function ValidateAccountBody(body: JsonBody<AccountBody>): (r: Result<NewAccount, Fault>)
    ensures r.Success? <==>
              && body.Parsed? && Truthy(body.fields.email)
              && body.fields.password.Some? && body.fields.password.value.JsString?
              && |body.fields.password.value.units| >= 6
    ensures r.Success? ==>
              r.value == NewAccount(body.fields.email.value, body.fields.password.value.units,
                                    MetadataOrEmpty(body.fields.metadata))
    ensures body.Unparsable? ==> r == Failure(Thrown(InvalidRequest, body.message))
    ensures body.Parsed? && !(Truthy(body.fields.email) && JsonTruthy(body.fields.password)) ==>
              r == Failure(Thrown(InvalidRequest, FieldsRequiredMessage))
    ensures body.Parsed? && Truthy(body.fields.email) && body.fields.password.Some?
            && body.fields.password.value.JsString? && 0 < |body.fields.password.value.units| < 6 ==>
              r == Failure(Thrown(InvalidRequest, PasswordTooShortMessage))
  {
    match body
    case Unparsable(m) => Failure(Thrown(InvalidRequest, m))
    case Parsed(AccountBody(email, password, metadata)) =>
      if !Truthy(email) || !JsonTruthy(password) || !password.value.JsString? then
        Failure(Thrown(InvalidRequest, FieldsRequiredMessage))
      else if |password.value.units| < MinPasswordLength then
        Failure(Thrown(InvalidRequest, PasswordTooShortMessage))
      else Success(NewAccount(email.value, password.value.units, MetadataOrEmpty(metadata)))
  }

  /** For every body whose password is absent or a string, the corrected validation decides exactly as the handler does. */
  lemma CorrectedAgreesOnStringPasswords(body: JsonBody<AccountBody>)
    requires body.Parsed? ==> body.fields.password.None? || body.fields.password.value.JsString?
    ensures ValidateAccountBody(body).Success? <==> ValidateAccountBodyAsWritten(body).Success?
    ensures ValidateAccountBody(body).Failure? ==> ValidateAccountBody(body).error == ValidateAccountBodyAsWritten(body).error
    ensures ValidateAccountBody(body).Success? ==>
              var n := ValidateAccountBody(body).value;
              ValidateAccountBodyAsWritten(body).value == RawAccount(n.email, JsString(n.password), n.metadata)
  {
  }

  /** The length bound is strict, in the code's checks and in the corrected ones: six units pass, five do not. */
  lemma SixUnitsIsEnough(email: string, p: Utf16)
    requires email != ""
    ensures |p| == 6 ==> ValidateAccountBodyAsWritten(Parsed(AccountBody(Some(email), Some(JsString(p)), None))).Success?
    ensures |p| == 5 ==>
              ValidateAccountBodyAsWritten(Parsed(AccountBody(Some(email), Some(JsString(p)), None)))
              == Failure(Thrown(InvalidRequest, "Password must be at least 6 characters long."))
    ensures |p| == 6 ==> ValidateAccountBody(Parsed(AccountBody(Some(email), Some(JsString(p)), None))).Success?
    ensures |p| == 5 ==>
              ValidateAccountBody(Parsed(AccountBody(Some(email), Some(JsString(p)), None)))
              == Failure(Thrown(InvalidRequest, "Password must be at least 6 characters long."))
  {
  }

  /** The corrected account as the creation call receives it: the password is a string. */
  function AsRaw(n: NewAccount): (r: RawAccount)
    ensures r.password.JsString? && r.password.units == n.password
    ensures r.email == n.email && r.metadata == n.metadata
  {
    RawAccount(n.email, JsString(n.password), n.metadata)
  }

  /**
   The request sequence shared by the handler and its corrected variant:
   preflight, the authorization pipeline, reading the body, then (given the
   outcome of body validation) at most one account creation whose data is
   echoed back.
   */
  function Serve<U>(req: Request<AccountBody>, oracles: Oracles<U>, validate: JsonBody<AccountBody> -> Result<RawAccount, Fault>): (o: Outcome<U>)
    ensures o.response.status in {200, 400, 403}
    ensures InPipelineOrder(o.trace)
    ensures forall c <- o.trace :: c.CreateAccount? ==>
              && req.httpMethod != "OPTIONS"
              && oracles.lookup == LookupRow(Some(Profile(Some("admin"))))
              && validate(req.body) == Success(RawAccount(c.email, c.password, c.metadata))
  {
    if req.httpMethod == "OPTIONS" then Outcome(Preflight(), [])
    else
      var gate := Authorize(CreateUserEndpoint, req.authorization, oracles.decode, oracles.lookup);
      match gate.caller
      case Failure(f) => Outcome(Reject(f), gate.trace)
      case Success(_) =>
        var reading := gate.trace + [ReadBody];
        match validate(req.body)
        case Failure(f) => Outcome(Reject(f), reading)
        case Success(account) =>
          var creating := reading + [CreateAccount(account.email, account.password, account.metadata)];
          match oracles.mutation
          case MutationError(m) => Outcome(Reject(Thrown(MutationFailed, CreateFailedPrefix + m)), creating)
          case MutationData(user) => Outcome(Accept(UserCreatedMessage, Some(user)), creating)
  }

  /** The corrected validation, producing what the creation call receives. */
  function ValidateAccountBodyCorrected(body: JsonBody<AccountBody>): (r: Result<RawAccount, Fault>)
    ensures r.Success? ==>
              && r.value.password.JsString? && |r.value.password.units| >= 6
              && ValidateAccountBody(body) == Success(NewAccount(r.value.email, r.value.password.units, r.value.metadata))
  {
    match ValidateAccountBody(body)
    case Success(n) => Success(AsRaw(n))
    case Failure(f) => Failure(f)
  }

  /**
   The handler as the code runs it: preflight, the shared authorization
   pipeline, the body checks as written, then at most one account creation
   whose data is echoed back.
   */
  function HandleCreateUser<U>(req: Request<AccountBody>, oracles: Oracles<U>): (o: Outcome<U>)
    ensures o.response.status in {200, 400, 403}
    ensures InPipelineOrder(o.trace)
    ensures |o.response.headers| >= 2 && o.response.headers[..2] == CorsHeaders
    ensures req.httpMethod == "OPTIONS" <==> o.response == Preflight()
    ensures req.httpMethod == "OPTIONS" ==> o.trace == []
    ensures forall c <- o.trace :: !c.SetUserRole?
    // fail-closed: an account is created only for an admin caller and a body that passes the checks, with its own values
    ensures forall c <- o.trace :: c.CreateAccount? ==>
              && req.httpMethod != "OPTIONS"
              && oracles.lookup == LookupRow(Some(Profile(Some("admin"))))
              && ValidateAccountBodyAsWritten(req.body) == Success(RawAccount(c.email, c.password, c.metadata))
              && c.email != "" && JsonTruthy(Some(c.password)) && !LengthCheckFails(c.password)
    ensures ReadBody in o.trace <==>
              req.httpMethod != "OPTIONS"
              && Authorize(CreateUserEndpoint, req.authorization, oracles.decode, oracles.lookup).caller.Success?
    ensures o.response.status == 403 <==>
              req.httpMethod != "OPTIONS"
              && Authorize(CreateUserEndpoint, req.authorization, oracles.decode, oracles.lookup).caller == Failure(PermissionDenied)
    ensures o.response.status == 403 ==> o.response.payload == Error(PermissionDeniedMessage)
    // a success other than the preflight echoes the store's data unmodified
    ensures o.response.status == 200 && req.httpMethod != "OPTIONS" ==>
              oracles.mutation.MutationData?
              && o.response.payload == Message(UserCreatedMessage, Some(oracles.mutation.data))
    // every failure before the mutation is answered with its own error response
    ensures req.httpMethod != "OPTIONS" && Authorize(CreateUserEndpoint, req.authorization, oracles.decode, oracles.lookup).caller.Failure? ==>
              o.response == Reject(Authorize(CreateUserEndpoint, req.authorization, oracles.decode, oracles.lookup).caller.error)
    ensures req.httpMethod != "OPTIONS" && Authorize(CreateUserEndpoint, req.authorization, oracles.decode, oracles.lookup).caller.Success? && ValidateAccountBodyAsWritten(req.body).Failure? ==>
              o.response == Reject(ValidateAccountBodyAsWritten(req.body).error)
    // a 200 other than the preflight means the mutation was issued, as the last call, and succeeded
    ensures o.response.status == 200 && req.httpMethod != "OPTIONS" ==>
              |o.trace| == 4 && IsMutation(o.trace[3]) && oracles.mutation.MutationData?
  {
    Serve(req, oracles, ValidateAccountBodyAsWritten)
  }

  /**
   The handler with the corrected body checks: the same sequence, but an
   account is only ever created with a string password of at least six code
   units.
   */
  function HandleCreateUserCorrected<U>(req: Request<AccountBody>, oracles: Oracles<U>): (o: Outcome<U>)
    ensures o.response.status in {200, 400, 403}
    ensures InPipelineOrder(o.trace)
    ensures forall c <- o.trace :: c.CreateAccount? ==>
              && req.httpMethod != "OPTIONS"
              && oracles.lookup == LookupRow(Some(Profile(Some("admin"))))
              && c.password.JsString? && |c.password.units| >= 6
              && ValidateAccountBody(req.body) == Success(NewAccount(c.email, c.password.units, c.metadata))
  {
    Serve(req, oracles, ValidateAccountBodyCorrected)
  }

  /** As written, an admin's request with a numeric password calls `createUser` with that number as the password. */
  lemma NumericPasswordReachesCreateUser<U>(req: Request<AccountBody>, oracles: Oracles<U>)
    requires req.httpMethod != "OPTIONS" && Truthy(req.authorization)
    requires oracles.decode.Decoded? && oracles.decode.token.element1.Some?
    requires Truthy(oracles.decode.token.element1.value.sub)
    requires oracles.lookup == LookupRow(Some(Profile(Some("admin"))))
    requires req.body == Parsed(AccountBody(Some("a@x.com"), Some(NonString(true, None)), None))
    ensures CreateAccount("a@x.com", NonString(true, None), map[]) in HandleCreateUser(req, oracles).trace
    ensures forall c <- HandleCreateUserCorrected(req, oracles).trace :: !IsMutation(c)
  {
    var t := HandleCreateUser(req, oracles).trace;
    assert t[3] == CreateAccount("a@x.com", NonString(true, None), map[]);
  }

  /** For every request whose password is absent or a string, the corrected handler behaves exactly as the code does. */
  lemma CorrectedHandlerAgreesOnStringPasswords<U>(req: Request<AccountBody>, oracles: Oracles<U>)
    requires req.body.Parsed? ==> req.body.fields.password.None? || req.body.fields.password.value.JsString?
    ensures HandleCreateUserCorrected(req, oracles) == HandleCreateUser(req, oracles)
  {
    CorrectedAgreesOnStringPasswords(req.body);
    assert ValidateAccountBodyCorrected(req.body) == ValidateAccountBodyAsWritten(req.body);
  }

  // ------------------------------------------------------------ properties

  /** A preflight is answered 200 "ok" with no store interaction at all. */
  lemma PreflightTouchesNothing<U>(req: Request<AccountBody>, oracles: Oracles<U>)
    requires req.httpMethod == "OPTIONS"
    ensures HandleCreateUser(req, oracles).response == Response(200, CorsHeaders, Text("ok"))
    ensures HandleCreateUser(req, oracles).trace == []
  {
  }

  /** Without a truthy Authorization header the answer is 400 "Missing Authorization header" and nothing is called. */
  lemma MissingHeaderRejected<U>(req: Request<AccountBody>, oracles: Oracles<U>)
    requires req.httpMethod != "OPTIONS" && (req.authorization == None || req.authorization == Some(""))
    ensures HandleCreateUser(req, oracles).response == Response(400, JsonHeaders, Error("Missing Authorization header"))
    ensures HandleCreateUser(req, oracles).trace == []
  {
  }

  /**
   The subject is read from the first present of `decoded[1]`,
   `decoded.payload` and `decoded`; if it is missing or empty the answer is
   400 "Invalid token" and the profile store is never consulted.
   */
  lemma EmptySubjectNeverLooksUp<U>(req: Request<AccountBody>, oracles: Oracles<U>)
    requires req.httpMethod != "OPTIONS" && Truthy(req.authorization) && oracles.decode.Decoded?
    requires var d := oracles.decode.token;
             var claims := if d.element1.Some? then d.element1.value
                           else if d.payloadProperty.Some? then d.payloadProperty.value
                           else d.own;
             claims.sub == None || claims.sub == Some("")
    ensures HandleCreateUser(req, oracles).response == Response(400, JsonHeaders, Error("Invalid token"))
    ensures forall c <- HandleCreateUser(req, oracles).trace :: !IsStoreCall(c)
  {
  }

  /**
   Once the caller's subject is known, a failed lookup is a 400 with the
   store's message and any role but "admin" is a 403 "Permission denied"; in
   both cases the body is never read and no account is created.
   */
  lemma GateFailureStopsCreation<U>(req: Request<AccountBody>, oracles: Oracles<U>)
    requires req.httpMethod != "OPTIONS"
    requires |Authorize(CreateUserEndpoint, req.authorization, oracles.decode, oracles.lookup).trace| == 2
    requires !(oracles.lookup.LookupRow? && oracles.lookup.profile == Some(Profile(Some("admin"))))
    ensures oracles.lookup.LookupError? ==>
              HandleCreateUser(req, oracles).response == Response(400, JsonHeaders, Error(oracles.lookup.message))
    ensures oracles.lookup.LookupRow? ==>
              HandleCreateUser(req, oracles).response == Response(403, JsonHeaders, Error("Permission denied"))
    ensures ReadBody !in HandleCreateUser(req, oracles).trace
    ensures forall c <- HandleCreateUser(req, oracles).trace :: !IsMutation(c)
  {
  }

  /**
   For an allowed caller the "required" check runs before the length check,
   and no body the checks reject creates an account.
   */
  lemma InvalidBodyNeverCreates<U>(req: Request<AccountBody>, oracles: Oracles<U>)
    requires req.httpMethod != "OPTIONS" && Truthy(req.authorization)
    requires oracles.decode.Decoded? && oracles.decode.token.element1.Some?
    requires Truthy(oracles.decode.token.element1.value.sub)
    requires oracles.lookup == LookupRow(Some(Profile(Some("admin"))))
    requires req.body.Parsed?
    ensures !Truthy(req.body.fields.email) || !JsonTruthy(req.body.fields.password) ==>
              HandleCreateUser(req, oracles).response == Response(400, JsonHeaders, Error("email and password are required."))
    ensures Truthy(req.body.fields.email) && req.body.fields.password.Some? && req.body.fields.password.value.JsString?
            && 0 < |req.body.fields.password.value.units| < 6 ==>
              HandleCreateUser(req, oracles).response
              == Response(400, JsonHeaders, Error("Password must be at least 6 characters long."))
    ensures ValidateAccountBodyAsWritten(req.body).Failure? ==>
              forall c <- HandleCreateUser(req, oracles).trace :: !IsMutation(c)
  {
  }

  /**
   An account is created if and only if the caller passed the gate and the
   body passes the checks as written; creation is then the single mutation and the last call, and
   receives exactly the body's email and password and its metadata or `{}`.
   */
  lemma {:induction false} CreationIssuedExactlyWhenAllowed<U>(req: Request<AccountBody>, oracles: Oracles<U>)
    ensures MutationCount(HandleCreateUser(req, oracles).trace) <= 1
    ensures MutationCount(HandleCreateUser(req, oracles).trace) == 1 <==>
              && req.httpMethod != "OPTIONS"
              && Authorize(CreateUserEndpoint, req.authorization, oracles.decode, oracles.lookup).caller.Success?
              && ValidateAccountBodyAsWritten(req.body).Success?
    ensures MutationCount(HandleCreateUser(req, oracles).trace) == 1 ==>
              var t := HandleCreateUser(req, oracles).trace;
              var b := req.body.fields;
              |t| == 4
              && t[3] == CreateAccount(b.email.value, b.password.value,
                                       if b.metadata.Some? then b.metadata.value else map[])
  {
    var t := HandleCreateUser(req, oracles).trace;
    AtMostOneMutation(t);
    if MutationCount(t) == 1 {
      var i := MutationIndex(t);
      assert i == 3;
    } else if |t| == 4 {
      assert IsMutation(t[3]);
      MutationCounted(t, 3);
    }
  }

  /** The creation outcome decides the response: 400 with the wrapped store message, or 200 echoing the created user unmodified. */
  lemma CreationOutcomeMapped<U>(req: Request<AccountBody>, oracles: Oracles<U>)
    requires req.httpMethod != "OPTIONS" && Truthy(req.authorization)
    requires oracles.decode.Decoded? && oracles.decode.token.element1.Some?
    requires Truthy(oracles.decode.token.element1.value.sub)
    requires oracles.lookup == LookupRow(Some(Profile(Some("admin"))))
    requires req.body.Parsed? && Truthy(req.body.fields.email) && JsonTruthy(req.body.fields.password)
    requires !LengthCheckFails(req.body.fields.password.value)
    ensures oracles.mutation.MutationError? ==>
              HandleCreateUser(req, oracles).response
              == Response(400, JsonHeaders, Error("Failed to create user: " + oracles.mutation.message))
    ensures oracles.mutation.MutationData? ==>
              HandleCreateUser(req, oracles).response
              == Response(200, JsonHeaders, Message("User created successfully.", Some(oracles.mutation.data)))
  {
  }
}

=== FILE: jstext.dfy ===
/**
 The few JavaScript string operations the handlers rely on: truthiness of an
 optional string, `String.prototype.replace` with a string pattern (which
 replaces only the FIRST occurrence, wherever it is), `Array.prototype.join`,
 and the UTF-16 code units that `String.prototype.length` counts.
 */
module JsText {
  import opened Wrappers

  /** One UTF-16 code unit; `length` on a JavaScript string counts these. */
  newtype CodeUnit = x: int | 0 <= x < 0x1_0000

  /** A JavaScript string seen as its UTF-16 code units. */
  type Utf16 = seq<CodeUnit>

  /** `!!s` for a value that is a string, `null` or `undefined`: only a non-empty string is truthy. */
  predicate Truthy(s: Option<string>) {
    s.Some? && s.value != ""
  }

  /** `p` occurs in `s` starting at index `i`. */
  predicate OccursAt(s: string, p: string, i: nat) {
    i + |p| <= |s| && s[i..i + |p|] == p
  }

  /** The first index at or after `from` where `p` occurs in `s`, if any. */
  function IndexOfFrom(s: string, p: string, from: nat): (r: Option<nat>)
    requires from <= |s|
    ensures r.Some? ==> from <= r.value && OccursAt(s, p, r.value)
    ensures r.Some? ==> forall j :: from <= j < r.value ==> !OccursAt(s, p, j)
    ensures r.None? ==> forall j :: from <= j <= |s| ==> !OccursAt(s, p, j)
    decreases |s| - from
  {
    if OccursAt(s, p, from) then Some(from)
    else if from == |s| then None
    else IndexOfFrom(s, p, from + 1)
  }

  /** `s.indexOf(p)`, with `None` for JavaScript's -1. */
  function IndexOf(s: string, p: string): (r: Option<nat>)
    ensures r.Some? ==> OccursAt(s, p, r.value) && forall j :: 0 <= j < r.value ==> !OccursAt(s, p, j)
    ensures r.None? ==> forall j :: 0 <= j <= |s| ==> !OccursAt(s, p, j)
  {
    IndexOfFrom(s, p, 0)
  }

  /** `s.replace(p, rep)` for a string pattern `p` and a replacement string without `$` patterns: the first occurrence of `p` is replaced, the rest is kept. */
  function ReplaceFirst(s: string, p: string, rep: string): (r: string)
    ensures (forall j :: 0 <= j <= |s| ==> !OccursAt(s, p, j)) ==> r == s
    ensures forall i: nat :: OccursAt(s, p, i) && (forall j :: 0 <= j < i ==> !OccursAt(s, p, j)) ==>
              r == s[..i] + rep + s[i + |p|..]
  {
    match IndexOf(s, p)
    case None => s
    case Some(i) => s[..i] + rep + s[i + |p|..]
  }

  /** `xs.join(sep)`. */
  function Join(xs: seq<string>, sep: string): string
  {
    if |xs| == 0 then ""
    else if |xs| == 1 then xs[0]
    else xs[0] + sep + Join(xs[1..], sep)
  }

  /**
   A JSON value in a request body field: a string (as its UTF-16 code units),
   or any other JSON value, described by its JavaScript truthiness and by its
   numeric `length` property when it has one (an array does, a number does not).
   */
  datatype JsonValue = JsString(units: Utf16) | NonString(truthy: bool, length: Option<int>)

  /** `!!v` for an optional JSON value. */
  predicate JsonTruthy(v: Option<JsonValue>) {
    match v
    case None => false
    case Some(JsString(u)) => |u| > 0
    case Some(NonString(t, _)) => t
  }
}

=== FILE: pipeline.dfy ===
/**
 The part both admin endpoints share: the abstract request, the outcomes of the
 external calls (token decoder, profile lookup, privileged mutation), the trace
 of calls a request makes, the error taxonomy with its status mapping, the JSON
 and preflight responses, and the authorization pipeline that runs before any
 request body is read:

   header present -> strip "Bearer " -> decode -> subject present
     -> look up the caller's profile -> allow only the role "admin".

 The two handlers copy this sequence line for line; here it is written once,
 as `Authorize`, and both handlers call it.
 */
module Pipeline {
  import opened Wrappers
  import opened JsText

  // ---------------------------------------------------------------- inputs

  /** The two endpoints; they differ only in how the decoded token's payload is found. */
  datatype Endpoint = CreateUserEndpoint | UpdateRoleEndpoint

  /** The claims object of a token; only its `sub` is read. */
  datatype Claims = Claims(sub: Option<string>)

  /**
   What the token decoder handed back, seen through the three reads the
   handlers make of it: element `[1]`, a `payload` property, and the `sub` of
   the value itself (the last fallback of the create-user handler).
   */
  datatype DecodedToken = DecodedToken(element1: Option<Claims>, payloadProperty: Option<Claims>, own: Claims)

  /** The decoder either throws (malformed token) or returns a value. Signatures are never checked. */
  datatype DecodeOutcome = DecodeThrew(message: string) | Decoded(token: DecodedToken)

  /** The selected columns of a row of the profile table. */
  datatype Profile = Profile(userRole: Option<string>)

  /** A single-row lookup answers with an error or with the (possibly null) row. */
  datatype LookupOutcome = LookupError(message: string) | LookupRow(profile: Option<Profile>)

  /** A privileged mutation answers with an error or with its data, which the model never inspects. */
  datatype MutationOutcome<R> = MutationError(message: string) | MutationData(data: R)

  /** What the three external calls would answer for this request. */
  datatype Oracles<R> = Oracles(decode: DecodeOutcome, lookup: LookupOutcome, mutation: MutationOutcome<R>)

  /** The request body: `req.json()` either throws or yields the fields the endpoint reads. */
  datatype JsonBody<B> = Unparsable(message: string) | Parsed(fields: B)

  /** An HTTP request: its method (`httpMethod`), its `Authorization` header (if sent), and its body. */
  datatype Request<B> = Request(httpMethod: string, authorization: Option<string>, body: JsonBody<B>)

  /** User metadata forwarded to account creation; values are abstracted to strings. */
  type Metadata = map<string, string>

  // ----------------------------------------------------------------- trace

  /** An external call a request makes, with the arguments it was given. */
  datatype Call =
    | DecodeToken(token: string)
    | SelectRole(userId: string)
    | ReadBody
    | SetUserRole(userId: string, newRole: string)
    | CreateAccount(email: string, password: JsonValue, metadata: Metadata)

  /** The position of a call in the fixed per-request sequence decode, lookup, body, mutation. */
  function Stage(c: Call): nat
  {
    match c
    case DecodeToken(_) => 0
    case SelectRole(_) => 1
    case ReadBody => 2
    case SetUserRole(_, _) => 3
    case CreateAccount(_, _, _) => 3
  }

  /** A call that writes to the identity or profile store. */
  predicate IsMutation(c: Call) {
    c.SetUserRole? || c.CreateAccount?
  }

  /** A call that reaches the store at all (read or write). */
  predicate IsStoreCall(c: Call) {
    c.SelectRole? || IsMutation(c)
  }

  /** The trace is a prefix of decode, lookup, body, mutation: nothing skipped, nothing repeated, nothing reordered. */
  predicate InPipelineOrder(t: seq<Call>) {
    |t| <= 4 && forall i :: 0 <= i < |t| ==> Stage(t[i]) == i
  }

  /** How many mutations a trace holds. */
  function MutationCount(t: seq<Call>): nat
  {
    if |t| == 0 then 0
    else (if IsMutation(t[0]) then 1 else 0) + MutationCount(t[1..])
  }

  /** Some mutation in a trace that counts one. */
  function MutationIndex(t: seq<Call>): (i: nat)
    requires MutationCount(t) > 0
    ensures i < |t| && IsMutation(t[i])
  {
    if IsMutation(t[0]) then 0 else 1 + MutationIndex(t[1..])
  }

  /** A mutation anywhere in a trace is counted. */
  lemma {:induction false} MutationCounted(t: seq<Call>, i: nat)
    requires i < |t| && IsMutation(t[i])
    ensures MutationCount(t) >= 1
  {
    if i > 0 {
      assert t[1..][i - 1] == t[i];
      MutationCounted(t[1..], i - 1);
    }
  }

  /** A trace in which a mutation can only stand at index `k` holds at most one mutation, and none if `k` is out of range. */
  lemma {:induction false} MutationsAtOneSlot(t: seq<Call>, k: int)
    requires forall i :: 0 <= i < |t| && IsMutation(t[i]) ==> i == k
    ensures MutationCount(t) <= (if 0 <= k < |t| then 1 else 0)
  {
    if |t| > 0 {
      forall i | 0 <= i < |t[1..]| && IsMutation(t[1..][i])
        ensures i == k - 1
      {
        assert t[1..][i] == t[i + 1];
      }
      MutationsAtOneSlot(t[1..], k - 1);
    }
  }

  /** A request that follows the pipeline issues at most one privileged mutation, and only as its last call. */
  lemma {:induction false} AtMostOneMutation(t: seq<Call>)
    requires InPipelineOrder(t)
    ensures MutationCount(t) <= 1
    ensures forall i :: 0 <= i < |t| && IsMutation(t[i]) ==> i == 3 == |t| - 1
  {
    forall i | 0 <= i < |t| && IsMutation(t[i])
      ensures i == 3
    {
      assert Stage(t[i]) == i;
    }
    MutationsAtOneSlot(t, 3);
  }

  // ---------------------------------------------------------------- errors

  /**
   Labels for the places a handler throws; the code throws plain errors and
   no response exposes the label, which only names the model's branches.
   Every thrown error ends the request with status 400.
   */
  datatype ErrorKind = MissingCredential | MalformedCredential | ResolutionFailed | InvalidRequest | MutationFailed

  /** How a request fails: the explicit 403 return, or a thrown error caught by the handler's catch-all. */
  datatype Fault = PermissionDenied | Thrown(kind: ErrorKind, message: string)

  const MissingHeaderMessage: string := "Missing Authorization header"
  const InvalidTokenMessage: string := "Invalid token"
  /** The TypeError the runtime throws when `payload.sub` is read while `payload` is undefined. */
  const UndefinedPayloadMessage: string := "Cannot read properties of undefined (reading 'sub')"
  const PermissionDeniedMessage: string := "Permission denied"
  /** The only role the gate lets through. */
  const AdminRole: string := "admin"

  /** The HTTP status a failure is reported with. */
  function StatusOf(f: Fault): (status: int)
    ensures status == 403 <==> f == PermissionDenied
    ensures status == 400 <==> f.Thrown?
  {
    if f.PermissionDenied? then 403 else 400
  }

  /** The `error` text a failure is reported with: the thrown error's own message. */
  function ErrorText(f: Fault): string
  {
    match f
    case PermissionDenied => PermissionDeniedMessage
    case Thrown(_, m) => m
  }

  // ------------------------------------------------------------- responses

  /** Response bodies: the preflight's plain text, a JSON `{message, user?}`, or a JSON `{error}`. */
  datatype Payload<U> = Text(text: string) | Message(message: string, user: Option<U>) | Error(error: string)

  datatype Response<U> = Response(status: int, headers: seq<(string, string)>, payload: Payload<U>)

  /** What a handler returns: the response, and the external calls made to produce it, in order. */
  datatype Outcome<U> = Outcome(response: Response<U>, trace: seq<Call>)

  const CorsHeaders: seq<(string, string)> := [
    ("Access-Control-Allow-Origin", "*"),
    ("Access-Control-Allow-Headers", "authorization, x-client-info, apikey, content-type")
  ]

  const JsonHeaders: seq<(string, string)> := CorsHeaders + [("Content-Type", "application/json")]

  /** The answer to an OPTIONS preflight. */
  function Preflight<U>(): Response<U>
  {
    Response(200, CorsHeaders, Text("ok"))
  }

  /** The JSON error response for a failure. */
  function Reject<U>(f: Fault): Response<U>
  {
    Response(StatusOf(f), JsonHeaders, Error(ErrorText(f)))
  }

  /** The JSON success response. */
  function Accept<U>(message: string, user: Option<U>): Response<U>
  {
    Response(200, JsonHeaders, Message(message, user))
  }

  // ---------------------------------------------------------- the pipeline

  /** The token: the header with its first "Bearer " removed. */
  function StripBearer(header: string): string
  {
    ReplaceFirst(header, "Bearer ", "")
  }

  /** A header of the form "Bearer <rest>" yields exactly <rest>. */
  lemma StripBearerPrefix(header: string)
    requires |header| >= 7 && header[..7] == "Bearer "
    ensures StripBearer(header) == header[7..]
  {
    assert OccursAt(header, "Bearer ", 0);
  }

  /** A header in which "Bearer " does not occur is used as the token unchanged. */
  lemma StripBearerAbsent(header: string)
    requires forall j :: 0 <= j <= |header| ==> !OccursAt(header, "Bearer ", j)
    ensures StripBearer(header) == header
  {
  }

  /**
   Putting "Bearer " back where its first occurrence was recovers the header:
   stripping removes exactly seven characters at the first occurrence and
   changes nothing else.
   */
  lemma StripBearerRoundTrip(header: string, i: nat)
    requires OccursAt(header, "Bearer ", i)
    requires forall j :: 0 <= j < i ==> !OccursAt(header, "Bearer ", j)
    ensures |StripBearer(header)| == |header| - 7
    ensures StripBearer(header)[..i] + "Bearer " + StripBearer(header)[i..] == header
  {
    var t := StripBearer(header);
    assert t == header[..i] + header[i + 7..];
    assert t[..i] == header[..i];
    assert t[i..] == header[i + 7..];
    assert header == header[..i] + header[i..i + 7] + header[i + 7..];
  }

  /** Only the first occurrence is removed: a doubled prefix keeps its second copy. */
  lemma StripBearerFirstOccurrenceOnly()
    ensures StripBearer("Bearer Bearer x") == "Bearer x"
  {
    var h := "Bearer Bearer x";
    StripBearerPrefix(h);
    assert h[7..] == "Bearer x";
  }

  /** The occurrence removed need not be a prefix. */
  lemma StripBearerNotOnlyPrefix()
    ensures StripBearer("xBearer y") == "xy"
  {
    var h := "xBearer y";
    assert OccursAt(h, "Bearer ", 1) by { assert h[1..8] == "Bearer "; }
    assert !OccursAt(h, "Bearer ", 0) by { assert h[0] != 'B'; }
    assert h[..1] == "x" && h[8..] == "y";
  }

  /**
   The subject claim of a decoded token. The role-update handler destructures
   the decoder's array and reads `payload.sub` from element `[1]`, which throws
   when that element is missing; the create-user handler falls back from
   `decoded[1]` to `decoded.payload` to `decoded` itself.
   */
  function SubjectOf(e: Endpoint, d: DecodedToken): (r: Result<Option<string>, Fault>)
    ensures d.element1.Some? ==> r == Success(d.element1.value.sub)
    ensures r.Failure? <==> e == UpdateRoleEndpoint && d.element1.None?
    ensures r.Failure? ==> r.error == Thrown(MalformedCredential, UndefinedPayloadMessage)
    ensures e == CreateUserEndpoint && d.element1.None? && d.payloadProperty.Some? ==>
              r == Success(d.payloadProperty.value.sub)
    ensures e == CreateUserEndpoint && d.element1.None? && d.payloadProperty.None? ==>
              r == Success(d.own.sub)
  {
    match e
    case UpdateRoleEndpoint =>
      if d.element1.Some? then Success(d.element1.value.sub)
      else Failure(Thrown(MalformedCredential, UndefinedPayloadMessage))
    case CreateUserEndpoint =>
      var payload := match d.element1
        case Some(c) => c
        case None => (match d.payloadProperty
          case Some(c) => c
          case None => d.own);
      Success(payload.sub)
  }

  /** The authorization decision: allow exactly a profile row whose role is the string "admin". */
  predicate AdminGate(profile: Option<Profile>)
  {
    profile.Some? && profile.value.userRole == Some(AdminRole)
  }

  /** Fail-closed: the gate allows one profile value and denies every other, including a missing row or role. */
  lemma AdminGateFailClosed(profile: Option<Profile>)
    ensures AdminGate(profile) <==> profile == Some(Profile(Some("admin")))
  {
  }

  /** The result of the shared pipeline: the caller's id when allowed, and the calls made so far. */
  datatype Verdict = Verdict(caller: Result<string, Fault>, trace: seq<Call>)

  /**
   Authenticate the caller and check that they are an admin, before anything
   else happens. No request body is read and no mutation is issued here.
   */
  function Authorize(e: Endpoint, authorization: Option<string>, decode: DecodeOutcome, lookup: LookupOutcome): (v: Verdict)
    ensures InPipelineOrder(v.trace) && |v.trace| <= 2
    ensures !Truthy(authorization) <==> v.trace == []
    ensures !Truthy(authorization) ==> v.caller == Failure(Thrown(MissingCredential, MissingHeaderMessage))
    ensures Truthy(authorization) ==> v.trace[0] == DecodeToken(StripBearer(authorization.value))
    ensures Truthy(authorization) && decode.DecodeThrew? ==>
              v == Verdict(Failure(Thrown(MalformedCredential, decode.message)), [DecodeToken(StripBearer(authorization.value))])
    ensures Truthy(authorization) && decode.Decoded? && SubjectOf(e, decode.token).Failure? ==>
              v == Verdict(Failure(SubjectOf(e, decode.token).error), [DecodeToken(StripBearer(authorization.value))])
    ensures v.caller.Success? ==>
              && decode.Decoded?
              && SubjectOf(e, decode.token) == Success(Some(v.caller.value))
              && v.caller.value != ""
              && |v.trace| == 2
              && v.trace[1] == SelectRole(v.caller.value)
              && lookup == LookupRow(Some(Profile(Some("admin"))))
    ensures |v.trace| == 2 <==>
              Truthy(authorization) && decode.Decoded? && SubjectOf(e, decode.token).Success? && Truthy(SubjectOf(e, decode.token).value)
    ensures |v.trace| == 2 ==>
              match lookup
              case LookupError(m) => v.caller == Failure(Thrown(ResolutionFailed, m))
              case LookupRow(p) => (AdminGate(p) <==> v.caller.Success?) && (!AdminGate(p) <==> v.caller == Failure(PermissionDenied))
    ensures v.caller == Failure(PermissionDenied) <==> |v.trace| == 2 && lookup.LookupRow? && !AdminGate(lookup.profile)
  {
    if !Truthy(authorization) then
      Verdict(Failure(Thrown(MissingCredential, MissingHeaderMessage)), [])
    else
      var decoding := [DecodeToken(StripBearer(authorization.value))];
      match decode
      case DecodeThrew(m) => Verdict(Failure(Thrown(MalformedCredential, m)), decoding)
      case Decoded(d) =>
        match SubjectOf(e, d)
        case Failure(f) => Verdict(Failure(f), decoding)
        case Success(sub) =>
          if !Truthy(sub) then Verdict(Failure(Thrown(MissingCredential, InvalidTokenMessage)), decoding)
          else
            var resolving := decoding + [SelectRole(sub.value)];
            match lookup
            case LookupError(m) => Verdict(Failure(Thrown(ResolutionFailed, m)), resolving)
            case LookupRow(p) =>
              if AdminGate(p) then Verdict(Success(sub.value), resolving)
              else Verdict(Failure(PermissionDenied), resolving)
  }

  /** An empty or missing subject stops the request with "Invalid token" before the profile store is consulted. */
  lemma EmptySubjectRejected(e: Endpoint, h: string, d: DecodedToken, lookup: LookupOutcome)
    requires h != ""
    requires SubjectOf(e, d).Success? && !Truthy(SubjectOf(e, d).value)
    ensures Authorize(e, Some(h), Decoded(d), lookup) ==
              Verdict(Failure(Thrown(MissingCredential, InvalidTokenMessage)), [DecodeToken(StripBearer(h))])
  {
  }

  /** A failed profile lookup is reported as a 400 with the store's own message, never as a 403. */
  lemma LookupErrorIsNotForbidden(e: Endpoint, h: Option<string>, decode: DecodeOutcome, m: string)
    ensures Authorize(e, h, decode, LookupError(m)).caller != Failure(PermissionDenied)
    ensures |Authorize(e, h, decode, LookupError(m)).trace| == 2 ==>
              Authorize(e, h, decode, LookupError(m)).caller == Failure(Thrown(ResolutionFailed, m))
  {
  }

  /**
   The two endpoints run the same gate: whenever the decoder's element `[1]`
   is present (the decoder's normal array result) they make the same calls
   and reach the same decision.
   */
  lemma SameGateForBothEndpoints(h: Option<string>, decode: DecodeOutcome, lookup: LookupOutcome)
    requires decode.Decoded? ==> decode.token.element1.Some?
    ensures Authorize(CreateUserEndpoint, h, decode, lookup) == Authorize(UpdateRoleEndpoint, h, decode, lookup)
  {
  }
}

=== FILE: update_role.dfy ===
/**
 The role-update endpoint (deployed under the name update-user-password): an
 admin sets the `user_role` column of another user's profile row to one of
 three allowed roles.
 */
module UpdateRole {
  import opened Wrappers
  import opened JsText
  import opened Pipeline

  /** The two fields read from the JSON body. */
  datatype RoleBody = RoleBody(userId: Option<string>, newRole: Option<string>)

  /** A validated role change: which profile row, and the role to write into it. */
  datatype RoleChange = RoleChange(userId: string, newRole: string)

  const AllowedRoles: seq<string> := ["admin", "manager", "cashier"]

  const FieldsRequiredMessage: string := "user_id and new_role are required."
  const InvalidRoleMessage: string := "Invalid role. Must be one of: " + Join(AllowedRoles, ", ")
  const UpdateFailedPrefix: string := "Failed to update role: "
  const RoleUpdatedMessage: string := "User role updated successfully."

  /** The error text for an unknown role lists the allowed roles, comma-separated, in order. */
  lemma InvalidRoleMessageText()
    ensures InvalidRoleMessage == "Invalid role. Must be one of: admin, manager, cashier"
  {
    assert AllowedRoles[1..] == ["manager", "cashier"];
    assert AllowedRoles[1..][1..] == ["cashier"];
  }

  /**
   Body validation, run only after the caller has been authorized: both
   fields must be non-empty strings, then the role must be allowed.
   */
  function ValidateRoleBody(body: JsonBody<RoleBody>): (r: Result<RoleChange, Fault>)
    ensures r.Success? <==>
              body.Parsed? && Truthy(body.fields.userId) && Truthy(body.fields.newRole)
              && body.fields.newRole.value in {"admin", "manager", "cashier"}
    ensures r.Success? ==> r.value == RoleChange(body.fields.userId.value, body.fields.newRole.value)
    ensures body.Unparsable? ==> r == Failure(Thrown(InvalidRequest, body.message))
    ensures body.Parsed? && !(Truthy(body.fields.userId) && Truthy(body.fields.newRole)) ==>
              r == Failure(Thrown(InvalidRequest, FieldsRequiredMessage))
    ensures body.Parsed? && Truthy(body.fields.userId) && Truthy(body.fields.newRole)
            && body.fields.newRole.value !in {"admin", "manager", "cashier"} ==>
              r == Failure(Thrown(InvalidRequest, InvalidRoleMessage))
  {
    match body
    case Unparsable(m) => Failure(Thrown(InvalidRequest, m))
    case Parsed(RoleBody(userId, newRole)) =>
      if !Truthy(userId) || !Truthy(newRole) then Failure(Thrown(InvalidRequest, FieldsRequiredMessage))
      else if newRole.value !in AllowedRoles then Failure(Thrown(InvalidRequest, InvalidRoleMessage))
      else Success(RoleChange(userId.value, newRole.value))
  }

  /**
   The handler: preflight, then the shared authorization pipeline, then body
   validation, then at most one update of the target's role.
   */
  function HandleUpdateRole(req: Request<RoleBody>, oracles: Oracles<()>): (o: Outcome<()>)
    ensures o.response.status in {200, 400, 403}
    ensures InPipelineOrder(o.trace)
    ensures |o.response.headers| >= 2 && o.response.headers[..2] == CorsHeaders
    ensures req.httpMethod == "OPTIONS" <==> o.response == Preflight()
    ensures req.httpMethod == "OPTIONS" ==> o.trace == []
    ensures forall c <- o.trace :: !c.CreateAccount?
    // fail-closed: the update is issued only for an admin caller and a valid body, with the body's own values
    ensures forall c <- o.trace :: c.SetUserRole? ==>
              && req.httpMethod != "OPTIONS"
              && oracles.lookup == LookupRow(Some(Profile(Some("admin"))))
              && ValidateRoleBody(req.body) == Success(RoleChange(c.userId, c.newRole))
    // the body is read only once the gate has allowed the caller
    ensures ReadBody in o.trace <==>
              req.httpMethod != "OPTIONS"
              && Authorize(UpdateRoleEndpoint, req.authorization, oracles.decode, oracles.lookup).caller.Success?
    ensures o.response.status == 403 <==>
              req.httpMethod != "OPTIONS"
              && Authorize(UpdateRoleEndpoint, req.authorization, oracles.decode, oracles.lookup).caller == Failure(PermissionDenied)
    ensures o.response.status == 403 ==> o.response.payload == Error(PermissionDeniedMessage)
    // every failure before the mutation is answered with its own error response
    ensures req.httpMethod != "OPTIONS" && Authorize(UpdateRoleEndpoint, req.authorization, oracles.decode, oracles.lookup).caller.Failure? ==>
              o.response == Reject(Authorize(UpdateRoleEndpoint, req.authorization, oracles.decode, oracles.lookup).caller.error)
    ensures req.httpMethod != "OPTIONS" && Authorize(UpdateRoleEndpoint, req.authorization, oracles.decode, oracles.lookup).caller.Success? && ValidateRoleBody(req.body).Failure? ==>
              o.response == Reject(ValidateRoleBody(req.body).error)
    // a 200 other than the preflight means the mutation was issued, as the last call, and succeeded
    ensures o.response.status == 200 && req.httpMethod != "OPTIONS" ==>
              |o.trace| == 4 && IsMutation(o.trace[3]) && oracles.mutation.MutationData?
  {
    if req.httpMethod == "OPTIONS" then Outcome(Preflight(), [])
    else
      var gate := Authorize(UpdateRoleEndpoint, req.authorization, oracles.decode, oracles.lookup);
      match gate.caller
      case Failure(f) => Outcome(Reject(f), gate.trace)
      case Success(_) =>
        var reading := gate.trace + [ReadBody];
        match ValidateRoleBody(req.body)
        case Failure(f) => Outcome(Reject(f), reading)
        case Success(change) =>
          var updating := reading + [SetUserRole(change.userId, change.newRole)];
          match oracles.mutation
          case MutationError(m) => Outcome(Reject(Thrown(MutationFailed, UpdateFailedPrefix + m)), updating)
          case MutationData(_) => Outcome(Accept(RoleUpdatedMessage, None), updating)
  }

  // ------------------------------------------------------------ properties

  /** A preflight is answered 200 "ok" with no decode, no lookup, no body read and no update. */
  lemma PreflightTouchesNothing(req: Request<RoleBody>, oracles: Oracles<()>)
    requires req.httpMethod == "OPTIONS"
    ensures HandleUpdateRole(req, oracles).response == Response(200, CorsHeaders, Text("ok"))
    ensures HandleUpdateRole(req, oracles).trace == []
  {
  }

  /** Without a truthy Authorization header the answer is 400 "Missing Authorization header" and nothing is called. */
  lemma MissingHeaderRejected(req: Request<RoleBody>, oracles: Oracles<()>)
    requires req.httpMethod != "OPTIONS" && (req.authorization == None || req.authorization == Some(""))
    ensures HandleUpdateRole(req, oracles).response == Response(400, JsonHeaders, Error("Missing Authorization header"))
    ensures HandleUpdateRole(req, oracles).trace == []
  {
  }

  /** A token whose subject is missing or empty gets 400 "Invalid token"; the profile store is never consulted. */
  lemma EmptySubjectNeverLooksUp(req: Request<RoleBody>, oracles: Oracles<()>, claims: Claims)
    requires req.httpMethod != "OPTIONS" && Truthy(req.authorization)
    requires oracles.decode.Decoded? && oracles.decode.token.element1 == Some(claims)
    requires claims.sub == None || claims.sub == Some("")
    ensures HandleUpdateRole(req, oracles).response == Response(400, JsonHeaders, Error("Invalid token"))
    ensures forall c <- HandleUpdateRole(req, oracles).trace :: !IsStoreCall(c)
  {
  }

  /** A failed profile lookup is a 400 carrying the store's message, and no update is attempted. */
  lemma LookupErrorSurfaced(req: Request<RoleBody>, oracles: Oracles<()>, m: string)
    requires req.httpMethod != "OPTIONS" && Truthy(req.authorization)
    requires oracles.decode.Decoded? && oracles.decode.token.element1.Some?
    requires Truthy(oracles.decode.token.element1.value.sub)
    requires oracles.lookup == LookupError(m)
    ensures HandleUpdateRole(req, oracles).response == Response(400, JsonHeaders, Error(m))
    ensures forall c <- HandleUpdateRole(req, oracles).trace :: !IsMutation(c) && c != ReadBody
  {
  }

  /**
   Fail-closed: once the caller's row has been read, anything but the role
   "admin" (a null row, a null role, any other string) is a 403 "Permission
   denied" before the body is read, and no update happens.
   */
  lemma NonAdminForbidden(req: Request<RoleBody>, oracles: Oracles<()>, profile: Option<Profile>)
    requires req.httpMethod != "OPTIONS" && Truthy(req.authorization)
    requires oracles.decode.Decoded? && oracles.decode.token.element1.Some?
    requires Truthy(oracles.decode.token.element1.value.sub)
    requires oracles.lookup == LookupRow(profile) && profile != Some(Profile(Some("admin")))
    ensures HandleUpdateRole(req, oracles).response == Response(403, JsonHeaders, Error("Permission denied"))
    ensures ReadBody !in HandleUpdateRole(req, oracles).trace
    ensures forall c <- HandleUpdateRole(req, oracles).trace :: !IsMutation(c)
  {
  }

  /**
   For an allowed caller, a body missing either field is rejected with the
   "required" message, and an unknown role with the message listing the
   allowed roles; neither issues an update.
   */
  lemma InvalidBodyNeverUpdates(req: Request<RoleBody>, oracles: Oracles<()>)
    requires req.httpMethod != "OPTIONS" && Truthy(req.authorization)
    requires oracles.decode.Decoded? && oracles.decode.token.element1.Some?
    requires Truthy(oracles.decode.token.element1.value.sub)
    requires oracles.lookup == LookupRow(Some(Profile(Some("admin"))))
    requires req.body.Parsed?
    ensures !Truthy(req.body.fields.userId) || !Truthy(req.body.fields.newRole) ==>
              HandleUpdateRole(req, oracles).response == Response(400, JsonHeaders, Error("user_id and new_role are required."))
    ensures Truthy(req.body.fields.userId) && Truthy(req.body.fields.newRole)
            && req.body.fields.newRole.value !in {"admin", "manager", "cashier"} ==>
              HandleUpdateRole(req, oracles).response
              == Response(400, JsonHeaders, Error("Invalid role. Must be one of: admin, manager, cashier"))
    ensures !(Truthy(req.body.fields.userId) && Truthy(req.body.fields.newRole)
              && req.body.fields.newRole.value in {"admin", "manager", "cashier"}) ==>
              forall c <- HandleUpdateRole(req, oracles).trace :: !IsMutation(c)
  {
    InvalidRoleMessageText();
  }

  /**
   An update is issued if and only if the caller passed the gate and the body
   is valid; it is then the single mutation of the request, its last call,
   and it writes exactly the requested role into exactly the requested row.
   */
  lemma {:induction false} UpdateIssuedExactlyWhenAllowed(req: Request<RoleBody>, oracles: Oracles<()>)
    ensures MutationCount(HandleUpdateRole(req, oracles).trace) <= 1
    ensures MutationCount(HandleUpdateRole(req, oracles).trace) == 1 <==>
              && req.httpMethod != "OPTIONS"
              && Authorize(UpdateRoleEndpoint, req.authorization, oracles.decode, oracles.lookup).caller.Success?
              && ValidateRoleBody(req.body).Success?
    ensures MutationCount(HandleUpdateRole(req, oracles).trace) == 1 ==>
              var t := HandleUpdateRole(req, oracles).trace;
              |t| == 4 && t[3] == SetUserRole(req.body.fields.userId.value, req.body.fields.newRole.value)
  {
    var t := HandleUpdateRole(req, oracles).trace;
    AtMostOneMutation(t);
    if MutationCount(t) == 1 {
      var i := MutationIndex(t);
      assert i == 3;
    } else if |t| == 4 {
      assert IsMutation(t[3]);
      MutationCounted(t, 3);
    }
  }

  /** The update's outcome decides the response: 400 with the wrapped store message, or 200 with the success message. */
  lemma UpdateOutcomeMapped(req: Request<RoleBody>, oracles: Oracles<()>)
    requires req.httpMethod != "OPTIONS" && Truthy(req.authorization)
    requires oracles.decode.Decoded? && oracles.decode.token.element1.Some?
    requires Truthy(oracles.decode.token.element1.value.sub)
    requires oracles.lookup == LookupRow(Some(Profile(Some("admin"))))
    requires req.body.Parsed? && Truthy(req.body.fields.userId) && Truthy(req.body.fields.newRole)
    requires req.body.fields.newRole.value in {"admin", "manager", "cashier"}
    ensures oracles.mutation.MutationError? ==>
              HandleUpdateRole(req, oracles).response
              == Response(400, JsonHeaders, Error("Failed to update role: " + oracles.mutation.message))
    ensures oracles.mutation.MutationData? ==>
              HandleUpdateRole(req, oracles).response
              == Response(200, JsonHeaders, Message("User role updated successfully.", None))
  {
  }
}

=== FILE: wrappers.dfy ===
/** The Option and Result datatypes used throughout the model. */
module Wrappers {

  /** A value that may be absent: JavaScript's `null`/`undefined` collapse to `None`. */
  datatype Option<+T> = None | Some(value: T)

  /** The outcome of a step that either produces a value or stops the request with an error. */
  datatype Result<+R, +E> = Success(value: R) | Failure(error: E)
}
